=== FILE: README.md ===
# PracterViews AI Interviewer, modelled in Dafny

This project models the decision logic of an AI mock-interview system. A
candidate picks a track on the dashboard. The interview room asks a small token
server for an access token to a real-time room named after the track. A voice
agent joins that room, reads the track back out of the room name and picks its
system prompt. During the interview, two widgets in the room send the
candidate's resume text and a GitHub summary to the agent over the room's data
channel.

Modules, one per file:

- `Wrappers` (`wrappers.dfy`): the `Option` type.
- `Text` (`text.dfy`): the string operations the sources rely on. These are
  substring search, JavaScript `trim` (ECMAScript white space and line
  terminators), `join`, a one-character `split`, and decimal rendering of
  numbers. Split and join, and decimal rendering and parsing, come with
  round-trip lemmas; trim is characterised by its contract.
- `Prompts` (`prompts.dfy`): the `INTERVIEW_PROMPTS` table. Every prompt is the
  identity block, then one flow block (document collection or direct
  questioning), then a role block. The wording of each block is a parameter,
  so the lemmas hold whatever the blocks say.
- `TokenServer` (`token_server.dfy`): the `GET /getToken` handler. This covers
  query parsing as `urlparse`/`parse_qs` do it, the session id, the participant
  identity, the room name, the grants, and the response or the error.
- `Agent` (`agent.dfy`): the agent's own decisions:
  - the interview type from the room name and its fallback;
  - the test for the human participant;
  - the reply each data-channel message asks the model for, including the
    `CODE_FEEDBACK` defaults and suggestion sentence and the phase instruction
    table;
  - the greeting retry loop.
- `Channel` and `Components` (`channel.dfy`, `components.dfy`): the
  data-channel message, and the status type the two widgets share.
- `GithubInput` (`github_input.dfy`): user-name extraction, the blank-input
  check, the summary text, and the widget's status machine.
- `ResumeUploader` (`resume_uploader.dfy`): the PDF type check, page text
  joining and trimming, the 50-character minimum, truncation to 8000
  characters, and the widget's status machine.
- `Sessions` (`sessions.dfy`): end-to-end properties that span the parts.
  - A dashboard track comes back to the agent as the same track and selects
    that track's prompt.
  - The issued identity is the one the agent treats as the candidate.
  - A published resume or GitHub summary reaches the agent unchanged.

Outside effects are parameters:

- the UUID text, the JWT signer and the configured server URL;
- the HTTP response of the GitHub API;
- the PDF reader's output (the text items of each page) or its exception;
- whether publishing on the data channel succeeded;
- whether each greeting attempt succeeded.

The agent's calls into the language model are modelled as the `Reply` it would
request.

## Model

| member | source | states |
|---|---|---|
| Text.Trim | frontend/src/components/GithubInput.jsx:13 | The trimmed text is empty exactly when the input is all white space. Otherwise it neither starts nor ends with white space, and it occurs in the input with only white space before and after it. |
| Text.Split | token_server.py:26 | Splitting always yields at least one piece, and no piece contains the separator. |
| Text.JoinSplit | token_server.py:26 | Joining the pieces of a split with the separator gives back the original text. |
| Text.SplitJoin | frontend/src/components/GithubInput.jsx:53 | Splitting a join of separator-free parts gives back exactly those parts. |
| Text.Decimal | frontend/src/components/GithubInput.jsx:53 | A number renders as a non-empty run of digits with no leading zero. |
| Text.DecimalRoundTrip | frontend/src/components/GithubInput.jsx:53 | Reading back a rendered number gives the number. |
| Prompts.PromptFor | agent.py:18-20 | A track in the table gets its own entry, and an unknown track gets the default entry. Every prompt is identity, flow, role. The flow is the direct one exactly for dsa, hackathon and hr. |
| Prompts.TrackKeys | prompts.py:177-188 | The table has exactly ten tracks. They are the seven document-flow tracks and the three direct tracks, and the two groups are disjoint. |
| Prompts.FlowOfTrack | prompts.py:109-171 | A track's prompt contains the document block exactly for document tracks and the direct block exactly for direct tracks. |
| Prompts.SharedPrompt | prompts.py:186-187 | Two different tracks share a prompt if and only if they are `general` and `default`. |
| Prompts.RenderCompose | prompts.py:109 | A prompt's text is the identity wording, then the flow wording, then the role wording. |
| Prompts.RenderedPromptLayout | prompts.py:9-25 | Whatever the wording, every track's prompt text starts with the identity block, and its flow block follows immediately after it. |
| TokenServer.QueryOf | token_server.py:26 | The query is exactly the text between the first `?` and the first `#` (or the end). It is empty when there is no `?` before any `#`. |
| TokenServer.ParseField | token_server.py:26 | A field is split at its first `=`. It is kept exactly when the value after that `=` is non-empty, as the pair of its decoded halves. A field without `=` is dropped. |
| TokenServer.ValuesOf | token_server.py:26-27 | Every value returned was a field with that name. There is none exactly when no field has the name. Otherwise the first value belongs to the first field with that name. |
| TokenServer.InterviewType | token_server.py:26-27 | The type is the first `type` value of the query, or `default` when there is none. It is never empty. |
| TokenServer.TypeQueryRoundTrip | token_server.py:26-27 | Requesting `/getToken?type=t` yields type `t` for any non-empty `t` free of `&`, `#`, `+` and `%`. |
| TokenServer.SessionId | token_server.py:33-34 | The session id is the first eight characters of the UUID text, all of them hex digits. |
| TokenServer.HandleGet | token_server.py:21-75 | A target outside `/getToken` is not answered, and a signing failure is a server error carrying the signer's message. A success returns the signed claims, the URL, and the identity and room exactly as granted. The identity is `user-` plus eight characters of the UUID, and the room is type, `-interview-`, session id. |
| Agent.ExtractType | agent.py:49-55 | With the marker present, the type is the prefix of the room name before the first `-interview`. Otherwise it is `default`. |
| Agent.ResolveType | agent.py:58-60 | The final type is always a table key. It is the extracted type unless that type is not in the table, in which case it is `default`. |
| Agent.ResolvedPromptIsTableEntry | agent.py:65 | The assistant built for the resolved type uses that type's own table entry, never the fallback. |
| Agent.FindHuman | agent.py:259-265 | The scan finds the first participant whose identity starts with `user-`, or reports that there is none. |
| Agent.InstructionFor | agent.py:190-228 | The generic instruction is used exactly for phases outside the six named ones. The resume, GitHub and topic rounds carry the requested question count. |
| Agent.PhaseInstructionRoundTrip | agent.py:196-228 | Every named phase has an instruction of its own, so no two phases share one. |
| Agent.SuggestionsText | agent.py:166-168 | The suggestion sentence is empty exactly when there are no suggestions. Otherwise it starts with the fixed lead-in followed by the first suggestion. |
| Agent.OnlyFirstThreeSpoken | agent.py:168 | Suggestions after the third never change what is said. |
| Agent.SuggestionSpoken | agent.py:168 | Each of the first three suggestions appears in the sentence. |
| Agent.SuggestionsSentence | agent.py:166-168 | With at least one suggestion, the sentence is exactly the lead-in, the first suggestion, then `. ` and the second and `. ` and the third where they exist, and nothing after. |
| Agent.SuggestionsInOrder | agent.py:168 | Among the first three suggestions, each one is followed in the sentence by `. ` and then the next one, so their order and separator are kept. |
| Agent.FeedbackReplyFor | agent.py:159-168 | Each field present in the feedback is used as given, and each missing one reads as its default: score 0, verdict `Unknown`, an empty summary. The suggestion text is the spoken sentence built from the given suggestions, or empty without them. |
| Agent.HandleData | agent.py:123-254 | A message gets a reply exactly when it parses and its `type` is one of the six known kinds. The reply answers that kind, and resume and GitHub content pass through unchanged. The feedback and phase-change replies are pinned down by FeedbackMessage and PhaseChangeMessage. |
| Agent.FeedbackMessage | agent.py:157-170 | A `CODE_FEEDBACK` message is answered from its feedback object, or with every default when it has none. |
| Agent.PhaseChangeMessage | agent.py:190-228 | A `PHASE_CHANGE` message is answered with InstructionFor its own phase and question count. A missing phase reads as empty, so it gets the generic instruction, and a missing count reads as 0. |
| Agent.PhaseChangeDefaults | agent.py:191-192 | A `PHASE_CHANGE` without a phase gets the generic instruction. A resume phase without a count asks for zero questions. |
| Agent.Greet | agent.py:285-299 | At most three attempts are made, stopping at the first success. The greeting succeeds exactly when one of the three attempts would. There is one pause after each failed attempt except the last. |
| Components.ErrorText | frontend/src/components/GithubInput.jsx:71 | A caught error shows its own message, or exactly the widget's fallback when the message is empty. |
| GithubInput.Normalise | frontend/src/components/GithubInput.jsx:13 | The trimmed input loses one character exactly when it ends in `/`. |
| GithubInput.FirstMatchFrom | frontend/src/components/GithubInput.jsx:14 | It finds the leftmost position where `github.com/` is followed by a character other than `/`. |
| GithubInput.SegmentFrom | frontend/src/components/GithubInput.jsx:14 | The capture is the longest run without `/` from its start: it ends at a `/` or at the end of the text. |
| GithubInput.UsernameOf | frontend/src/components/GithubInput.jsx:14-15 | On a match, the user name is the capture at the leftmost match: the longest non-empty run without `/` right after `github.com/`. Without a match, it is the whole text. |
| GithubInput.ExtractUsername | frontend/src/components/GithubInput.jsx:11-16 | The same as UsernameOf, applied to the trimmed input without its trailing `/`. |
| GithubInput.CaptureUnique | frontend/src/components/GithubInput.jsx:14-15 | The leftmost match and the greedy run admit exactly one capture, so the user name is determined. |
| GithubInput.PlainUsernameHasNoMatch | frontend/src/components/GithubInput.jsx:14 | Text without `/` never matches the pattern. |
| GithubInput.BareUsername | frontend/src/components/GithubInput.jsx:11-16 | A bare user name is taken as it is. |
| GithubInput.ProfileUrlUsername | frontend/src/components/GithubInput.jsx:11-16 | `https://github.com/u`, with or without a trailing `/`, yields `u`. |
| GithubInput.OrElse | frontend/src/components/GithubInput.jsx:45-46 | A missing or empty description or language is replaced by exactly its fallback (`No description`, `Not specified`). A present, non-empty one is kept. |
| GithubInput.RepoLines | frontend/src/components/GithubInput.jsx:53 | There is one line per repository, and line k starts with its number k+1 and `. `. |
| GithubInput.RepoLineIsOneLine | frontend/src/components/GithubInput.jsx:53 | A repository without line breaks in its fields renders as a single line. |
| GithubInput.SummaryLines | frontend/src/components/GithubInput.jsx:51-53 | Read line by line, the summary is the user-name header, the list header, then exactly the repository lines in order. |
| GithubInput.Edit | frontend/src/components/GithubInput.jsx:93-96 | Editing is ignored while loading or after success. Otherwise it sets the text and turns an error status back to idle. |
| GithubInput.Begin | frontend/src/components/GithubInput.jsx:18-27 | A blank field is an error with its message and requests nothing. Otherwise the widget loads the extracted user name with the error cleared. Nothing happens while loading or after success. |
| GithubInput.Finish | frontend/src/components/GithubInput.jsx:29-73 | The widget succeeds exactly when the response is OK and the publish succeeds, and only then is the summary published. A 404 shows "user not found", and an error is never blank. |
| GithubInput.StatusMachine | frontend/src/components/GithubInput.jsx:93-114 | Every event moves the status along idle, loading, success or error, or from error back to idle or loading. Success is final. |
| ResumeUploader.ExtractText | frontend/src/components/ResumeUploader.jsx:17-30 | The extracted text neither starts nor ends with white space. |
| ResumeUploader.AccumulatedIsJoin | frontend/src/components/ResumeUploader.jsx:21-27 | The page loop builds the page texts joined by line breaks, plus one final line break. |
| ResumeUploader.ExtractTextIsJoin | frontend/src/components/ResumeUploader.jsx:17-30 | The extracted text is the page texts, each its items joined by single spaces, joined by line breaks and trimmed. |
| ResumeUploader.Truncate | frontend/src/components/ResumeUploader.jsx:56 | The content sent is a prefix of the text, of length min(length, 8000). |
| ResumeUploader.TruncateIdempotent | frontend/src/components/ResumeUploader.jsx:56 | Cutting twice equals cutting once, and text within the limit is untouched. |
| ResumeUploader.Choose | frontend/src/components/ResumeUploader.jsx:32-44 | No file, or a disabled input, changes nothing. A non-PDF type is an error that keeps the old file name. A PDF starts loading under its name with the error cleared. |
| ResumeUploader.Finish | frontend/src/components/ResumeUploader.jsx:46-71 | The widget succeeds exactly when extraction gave at least 50 characters and the publish succeeds, and only then is the truncated text published. Short text shows its own message, and an error is never blank. |
| ResumeUploader.PublishedContentBounds | frontend/src/components/ResumeUploader.jsx:49-56 | Published content is a prefix of the extracted text of 50 to 8000 characters. |
| ResumeUploader.StatusMachine | frontend/src/components/ResumeUploader.jsx:32-96 | Every event moves along an allowed edge. Nothing returns to idle, and only completion leaves loading. |
| Sessions.TokenTarget | frontend/src/pages/InterviewRoom.jsx:51 | The interview room always asks on the `/getToken` route. |
| Sessions.DashboardTracksHavePrompts | frontend/src/pages/Dashboard.jsx:68-139 | Every dashboard track, and the hero's `general`, has a prompt. `dsa` has a prompt but no card. |
| Sessions.RoomNameRoundTrip | agent.py:49-51 | The agent reads back from `t-interview-<id>` exactly the type `t` the token server put there, whenever `t` holds no `-interview`. |
| Sessions.SessionUsesItsPrompt | agent.py:58-65 | An issued token for a table track names a room the agent resolves to the same track, and so to that track's prompt. |
| Sessions.UnknownTrackFallsBack | agent.py:58-60 | For a non-empty, dash-free, query-safe route type outside the table, the server echoes the type but the agent runs the default interview. |
| Sessions.IssuedIdentityIsHuman | agent.py:262 | The identity in every issued token passes the agent's human test. |
| Sessions.ResumeDeliveredToAgent | agent.py:131-142 | A published resume is answered as a resume reply of 50 to 8000 characters. |
| Sessions.GithubDeliveredToAgent | agent.py:144-155 | A published GitHub summary is answered as a profile reply carrying the summary unchanged. |

## Left out

- The real-time session, the language model, noise cancellation and the
  transcript logger are not modelled. They are calls into SDKs whose code is
  not part of this model.
- The avatar start-up and its fallback (agent.py:68-107) are not modelled.
  The fallback condition ends in `or True`, so every failure falls back. Its
  outcome does not influence any other decision.
- The wait for a human to join (agent.py:267-278) is not modelled: it is an
  event wait. Only the scan over the participants already present is
  modelled, as `Agent.FindHuman`, and the same `user-` test is `Agent.IsHuman`.
- Agent.Greet: the pauses between failed greeting attempts (agent.py:297) are
  counted, not timed. The two-second wait before the first attempt
  (agent.py:283) is not modelled.
- The HTTP server, the `OPTIONS` handler, response headers and status codes
  are not modelled. Neither is JSON encoding of the response and of the
  data-channel messages, nor the `TextEncoder` bytes.
- The JWT is not modelled: it is signed by a function parameter.
- TokenServer.ParseField: percent-escapes are not decoded, because decoding
  needs UTF-8 handling. Only `+` becomes a space. `TypeQueryRoundTrip`
  therefore requires a type free of `%` and `+`.
- TokenServer.QueryOf: the control characters that `urlsplit` strips (tab, CR,
  LF) are not removed.
- Agent.HandleData: message fields have fixed types (text, integer, list of
  text), and a JSON `null` is read as an absent field. In the source, values
  of other types behave differently:
  - a `content` without a length (agent.py:129) or a non-object `feedback`
    (agent.py:160) raises, and the handler swallows the error, so no reply is
    made;
  - a `null` score, verdict or summary is rendered as `None` (agent.py:174-176);
  - a `null` `questionsRequired` reads as `None` (agent.py:192), so the resume,
    GitHub and topic instructions ask for exactly `None` questions
    (agent.py:204, 210, 216), where the model asks for 0;
  - a non-integer `questionsRequired` such as `"3"` is rendered as written
    (agent.py:204, 210, 216).
  A `null` phase gets the generic instruction in the source as in the model.
  None of these is modelled. Bytes that are not a JSON object are `None`.
- The prompt wording and the reply instruction wording are not modelled. They
  are parameters or constructor names, so properties hold for any wording.
- JavaScript strings count UTF-16 code units and the model counts characters,
  so `length < 50` and `substring(0, 8000)` differ from the model for text
  outside the Basic Multilingual Plane.
- GithubInput.Finish: the request URL built from the user name, the
  `per_page=10&sort=updated` parameters and the API's own ordering are not
  modelled. The decoded repository list is a parameter, and any JSON that is
  not a list of repositories is folded into the `FetchThrew` outcome.
- ResumeUploader.Finish: the PDF reader (`pdfjs-dist`, its worker, the page
  loading) is not modelled. Its output, the text items of each page, is a
  parameter, and so is the message of any exception it throws.
- No code evaluator or phase-score bookkeeping exists in the modelled files, so
  none is modelled; the agent only reacts to the `PHASE_CHANGE` and
  `CODE_FEEDBACK` messages it receives.
- The remaining page components (interview room layout, IDE panel, report
  screen, animations and styling) are not modelled.

=== FILE: agent.dfy ===
/** The interviewer agent's own decisions: which interview type a room is
    for, which participant is the human candidate, what reply each
    data-channel message asks the language model for, and how often the
    opening greeting is retried. The real-time session, the avatar providers
    and the language model are not modelled: a reply is the request the agent
    would hand to the model, and the outcome of each greeting attempt is a
    parameter. */
module Agent {
  import opened Wrappers
  import opened Text
  import Prompts
  import opened Channel

  // ---------------------------------------------------------------------
  // Interview type from the room name
  // ---------------------------------------------------------------------

  const InterviewMarker := "-interview"

  /** The interview type encoded in a room name: the text before the first
      `-interview`, or `default` when the room name has no such marker. */
  function ExtractType(room: string): (t: string)
    ensures Contains(room, InterviewMarker) ==>
      && t <= room
      && OccursAt(room, InterviewMarker, |t|)
      && forall j: nat :: j < |t| ==> !OccursAt(room, InterviewMarker, j)
    ensures !Contains(room, InterviewMarker) ==> t == Prompts.DefaultTrack
  {
    match IndexOf(room, InterviewMarker)
    case Some(i) => room[..i]
    case None => Prompts.DefaultTrack
  }

  /** The type the agent runs the interview as: the extracted type when the
      prompt table knows it, `default` otherwise. */
  function ResolveType(room: string): (t: string)
    ensures t in Prompts.InterviewPrompts
    ensures t == ExtractType(room) || t == Prompts.DefaultTrack
    ensures t != ExtractType(room) ==> ExtractType(room) !in Prompts.InterviewPrompts
  {
    var extracted := ExtractType(room);
    if extracted in Prompts.InterviewPrompts then extracted else Prompts.DefaultTrack
  }

  /** Once the type is resolved, the assistant's prompt lookup never needs
      its own fallback: the prompt is the table's entry for that type. */
  lemma ResolvedPromptIsTableEntry(room: string)
    ensures Prompts.PromptFor(ResolveType(room)) == Prompts.InterviewPrompts[ResolveType(room)]
  {
  }

  // ---------------------------------------------------------------------
  // The human participant
  // ---------------------------------------------------------------------

  const HumanPrefix := "user-"

  /** A participant is the candidate when its identity starts with `user-`. */
  predicate IsHuman(identity: string) {
    HumanPrefix <= identity
  }

  /** Scans the participants already in the room, in order, for the first
      human one. */
  method FindHuman(identities: seq<string>) returns (found: Option<nat>)
    ensures found.Some? ==> found.value < |identities| && IsHuman(identities[found.value])
    ensures found.Some? ==> forall j | 0 <= j < found.value :: !IsHuman(identities[j])
    ensures found.None? ==> forall j | 0 <= j < |identities| :: !IsHuman(identities[j])
  {
    var i := 0;
    while i < |identities|
      invariant 0 <= i <= |identities|
      invariant forall j | 0 <= j < i :: !IsHuman(identities[j])
    {
      if IsHuman(identities[i]) {
        return Some(i);
      }
      i := i + 1;
    }
    return None;
  }

  // ---------------------------------------------------------------------
  // Phase instructions
  // ---------------------------------------------------------------------

  /** The instruction sent when the frontend announces a phase; the resume,
      GitHub and topic rounds carry the number of questions to ask. */
  datatype PhaseInstruction =
    | Welcome
    | ResumeRound(questions: int)
    | GithubRound(questions: int)
    | TopicRound(questions: int)
    | CodingRound
    | Conclusion
    | ContinueInterview   // the generic instruction for any other phase name

  const NamedPhases: set<string> := {"introduction", "resume", "github", "topic", "coding", "report"}

  /** The instruction table for a message asking for `questions` questions. */
  function PhaseInstructions(questions: int): map<string, PhaseInstruction> {
    map[
      "introduction" := Welcome,
      "resume" := ResumeRound(questions),
      "github" := GithubRound(questions),
      "topic" := TopicRound(questions),
      "coding" := CodingRound,
      "report" := Conclusion
    ]
  }

  /** The instruction for a phase name, with the generic fallback. */
  function InstructionFor(phase: string, questions: int): (r: PhaseInstruction)
    ensures r == ContinueInterview <==> phase !in NamedPhases
    ensures phase in {"resume", "github", "topic"} ==>
      (r.ResumeRound? || r.GithubRound? || r.TopicRound?) && r.questions == questions
  {
    var table := PhaseInstructions(questions);
    if phase in table then table[phase] else ContinueInterview
  }

  /** The phase a specific instruction belongs to. */
  function PhaseOf(instruction: PhaseInstruction): Option<string> {
    match instruction
    case Welcome => Some("introduction")
    case ResumeRound(_) => Some("resume")
    case GithubRound(_) => Some("github")
    case TopicRound(_) => Some("topic")
    case CodingRound => Some("coding")
    case Conclusion => Some("report")
    case ContinueInterview => None
  }

  /** Each named phase gets its own instruction: the instruction tells which
      phase it was chosen for, so no two phases share one. */
  lemma PhaseInstructionRoundTrip(phase: string, questions: int)
    ensures PhaseOf(InstructionFor(phase, questions)) == (if phase in NamedPhases then Some(phase) else None)
  {
  }

  // ---------------------------------------------------------------------
  // Code feedback
  // ---------------------------------------------------------------------

  const SuggestionsLead := "Here are my suggestions for improvement: "
  const SuggestionSeparator := ". "
  const SpokenSuggestions := 3

  /** The spoken suggestion sentence: empty without suggestions, otherwise
      the lead-in followed by the first three suggestions. */
  function SuggestionsText(suggestions: seq<string>): (r: string)
    ensures r == [] <==> suggestions == []
    ensures suggestions != [] ==> SuggestionsLead + suggestions[0] <= r
  {
    if suggestions == [] then []
    else
      var spoken := if |suggestions| <= SpokenSuggestions then suggestions else suggestions[..SpokenSuggestions];
      SuggestionsLead + Join(spoken, SuggestionSeparator)
  }

  /** Suggestions after the third are never spoken. */
  lemma OnlyFirstThreeSpoken(a: seq<string>, b: seq<string>)
    requires |a| >= SpokenSuggestions && |b| >= SpokenSuggestions
    requires a[..SpokenSuggestions] == b[..SpokenSuggestions]
    ensures SuggestionsText(a) == SuggestionsText(b)
  {
    if |a| == SpokenSuggestions { assert a == a[..SpokenSuggestions]; }
    if |b| == SpokenSuggestions { assert b == b[..SpokenSuggestions]; }
  }

  /** Each of the first three suggestions is spoken. */
  lemma SuggestionSpoken(suggestions: seq<string>, k: nat)
    requires k < |suggestions| && k < SpokenSuggestions
    ensures Contains(SuggestionsText(suggestions), suggestions[k])
  {
    var spoken := if |suggestions| <= SpokenSuggestions then suggestions else suggestions[..SpokenSuggestions];
    var joined := Join(spoken, SuggestionSeparator);
    JoinContainsPart(spoken, SuggestionSeparator, k);
    var i: nat :| i <= |joined| && OccursAt(joined, spoken[k], i);
    var r := SuggestionsLead + joined;
    assert r[|SuggestionsLead| + i..|SuggestionsLead| + i + |spoken[k]|] == joined[i..i + |spoken[k]|];
    assert OccursAt(r, suggestions[k], |SuggestionsLead| + i);
  }

  /** The whole sentence: the lead-in and at most the first three
      suggestions with `. ` between them, and nothing after. */
  lemma SuggestionsSentence(suggestions: seq<string>)
    requires suggestions != []
    ensures SuggestionsText(suggestions) ==
      SuggestionsLead + suggestions[0]
        + (if |suggestions| > 1 then SuggestionSeparator + suggestions[1] else [])
        + (if |suggestions| > 2 then SuggestionSeparator + suggestions[2] else [])
  {
    var spoken := if |suggestions| <= SpokenSuggestions then suggestions else suggestions[..SpokenSuggestions];
    var sep := SuggestionSeparator;
    if |spoken| == 1 {
      assert Join(spoken, sep) == suggestions[0];
    } else if |spoken| == 2 {
      assert Join(spoken[1..], sep) == suggestions[1];
      assert Join(spoken, sep) == suggestions[0] + sep + suggestions[1];
    } else {
      assert Join(spoken[1..][1..], sep) == suggestions[2];
      assert Join(spoken[1..], sep) == suggestions[1] + sep + suggestions[2];
      assert Join(spoken, sep) == suggestions[0] + sep + (suggestions[1] + sep + suggestions[2]);
    }
  }

  /** The spoken suggestions keep their order, each followed by `. ` and the
      next one. */
  lemma SuggestionsInOrder(suggestions: seq<string>, k: nat)
    requires k + 1 < |suggestions| && k + 1 < SpokenSuggestions
    ensures Contains(SuggestionsText(suggestions), suggestions[k] + SuggestionSeparator + suggestions[k + 1])
  {
    var spoken := if |suggestions| <= SpokenSuggestions then suggestions else suggestions[..SpokenSuggestions];
    var joined := Join(spoken, SuggestionSeparator);
    var pair := suggestions[k] + SuggestionSeparator + suggestions[k + 1];
    JoinContainsAdjacent(spoken, SuggestionSeparator, k);
    assert spoken[k] + SuggestionSeparator + spoken[k + 1] == pair;
    var i: nat :| i <= |joined| && OccursAt(joined, pair, i);
    var r := SuggestionsLead + joined;
    assert r[|SuggestionsLead| + i..|SuggestionsLead| + i + |pair|] == joined[i..i + |pair|];
    assert OccursAt(r, pair, |SuggestionsLead| + i);
  }

  // ---------------------------------------------------------------------
  // Data-channel messages
  // ---------------------------------------------------------------------

  /** What the agent asks the language model to say in answer to a message. */
  datatype Reply =
    | ResumeReply(resume: string)
    | GithubReply(profile: string)
    | FeedbackReply(score: int, verdict: string, summary: string, suggestionsText: string)
    | PhaseReply(instruction: PhaseInstruction)
    | SkippedReply
    | CompleteReply

  const MessageKinds: set<string> :=
    {ResumeKind, GithubKind, CodeFeedbackKind, PhaseChangeKind, SkippedKind, CompleteKind}

  /** The message type a reply answers. */
  function AnsweredKind(reply: Reply): string {
    match reply
    case ResumeReply(_) => ResumeKind
    case GithubReply(_) => GithubKind
    case FeedbackReply(_, _, _, _) => CodeFeedbackKind
    case PhaseReply(_) => PhaseChangeKind
    case SkippedReply => SkippedKind
    case CompleteReply => CompleteKind
  }

  const DefaultVerdict := "Unknown"

  /** The feedback reply: missing fields read as score 0, verdict `Unknown`,
      an empty summary and no suggestions. */
  function FeedbackReplyFor(feedback: Feedback): (r: Reply)
    ensures r.FeedbackReply?
    ensures feedback == Feedback(None, None, None, None) ==> r == FeedbackReply(0, DefaultVerdict, [], [])
    ensures r.score == if feedback.score.Some? then feedback.score.value else 0
    ensures r.verdict == if feedback.verdict.Some? then feedback.verdict.value else DefaultVerdict
    ensures r.summary == if feedback.summary.Some? then feedback.summary.value else []
    ensures feedback.suggestions.None? ==> r.suggestionsText == []
    ensures feedback.suggestions.Some? ==> r.suggestionsText == SuggestionsText(feedback.suggestions.value)
  {
    FeedbackReply(
      feedback.score.GetOr(0),
      feedback.verdict.GetOr(DefaultVerdict),
      feedback.summary.GetOr([]),
      SuggestionsText(feedback.suggestions.GetOr([])))
  }

  /** Handles one data-channel message. `None` stands for bytes that do not
      parse as a JSON object; the handler's exception guard drops them, and
      an unrecognised `type` is ignored too. */
  function HandleData(packet: Option<Payload>): (r: Option<Reply>)
    ensures r.Some? <==> packet.Some? && packet.value.kind.GetOr([]) in MessageKinds
    ensures r.Some? ==> AnsweredKind(r.value) == packet.value.kind.value
    ensures r.Some? && (r.value.ResumeReply? || r.value.GithubReply?) ==>
      (if r.value.ResumeReply? then r.value.resume else r.value.profile) == packet.value.content.GetOr([])
  {
    match packet
    case None => None
    case Some(p) =>
      var kind := p.kind.GetOr([]);
      var content := p.content.GetOr([]);
      if kind == ResumeKind then Some(ResumeReply(content))
      else if kind == GithubKind then Some(GithubReply(content))
      else if kind == CodeFeedbackKind then
        Some(FeedbackReplyFor(p.feedback.GetOr(Feedback(None, None, None, None))))
      else if kind == PhaseChangeKind then
        Some(PhaseReply(InstructionFor(p.phase.GetOr([]), p.questionsRequired.GetOr(0))))
      else if kind == SkippedKind then Some(SkippedReply)
      else if kind == CompleteKind then Some(CompleteReply)
      else None
  }

  /** A `CODE_FEEDBACK` message is answered from its `feedback` object, and a
      message without one is spoken with every default. */
  lemma FeedbackMessage(p: Payload)
    requires p.kind == Some(CodeFeedbackKind)
    ensures HandleData(Some(p)) == Some(FeedbackReplyFor(p.feedback.GetOr(Feedback(None, None, None, None))))
    ensures p.feedback.None? ==> HandleData(Some(p)) == Some(FeedbackReply(0, DefaultVerdict, [], []))
  {
  }

  /** A `PHASE_CHANGE` message is answered with the instruction for its phase
      and question count; a missing phase reads as no phase and a missing
      count as zero. */
  lemma PhaseChangeMessage(p: Payload)
    requires p.kind == Some(PhaseChangeKind)
    ensures HandleData(Some(p)) == Some(PhaseReply(InstructionFor(p.phase.GetOr([]), p.questionsRequired.GetOr(0))))
  {
  }

  /** A `PHASE_CHANGE` message without a phase gets the generic instruction,
      and one without a question count asks for zero questions. */
  lemma PhaseChangeDefaults(p: Payload)
    requires p.kind == Some(PhaseChangeKind)
    ensures p.phase.None? ==> HandleData(Some(p)) == Some(PhaseReply(ContinueInterview))
    ensures p.phase == Some("resume") && p.questionsRequired.None? ==>
      HandleData(Some(p)) == Some(PhaseReply(ResumeRound(0)))
  {
  }

  // ---------------------------------------------------------------------
  // Greeting retries
  // ---------------------------------------------------------------------

  const GreetingAttempts := 3

  /** Asks for the opening greeting until one attempt succeeds, at most three
      times, pausing after each failed attempt but the last. `succeeds(i)`
      is the outcome of attempt `i` (counted from 0). */
  method Greet(succeeds: nat -> bool) returns (attempts: nat, pauses: nat, greeted: bool)
    ensures 1 <= attempts <= GreetingAttempts
    ensures greeted <==> exists i | 0 <= i < GreetingAttempts :: succeeds(i)
    ensures greeted ==> succeeds(attempts - 1)
    ensures forall i | 0 <= i < attempts - 1 :: !succeeds(i)
    ensures !greeted ==> attempts == GreetingAttempts
    ensures pauses == attempts - 1
  {
    attempts, pauses, greeted := 0, 0, false;
    while attempts < GreetingAttempts
      invariant 0 <= attempts <= GreetingAttempts
      invariant !greeted
      invariant forall i | 0 <= i < attempts :: !succeeds(i)
      invariant pauses == (if attempts < GreetingAttempts then attempts else GreetingAttempts - 1)
    {
      var attempt := attempts;
      attempts := attempts + 1;
      if succeeds(attempt) {
        greeted := true;
        break;
      }
      if attempt < GreetingAttempts - 1 {
        pauses := pauses + 1;
      }
    }
  }
}

=== FILE: channel.dfy ===
/** The JSON messages the frontend publishes on the room's reliable data
    channel and the agent reads back. A field absent from the JSON object is
    `None`; the JSON encoding itself is not modelled. */
module Channel {
  import opened Wrappers

  /** The `feedback` object of a `CODE_FEEDBACK` message. */
  datatype Feedback = Feedback(
    score: Option<int>,
    verdict: Option<string>,
    summary: Option<string>,
    suggestions: Option<seq<string>>)

  /** A data-channel message; `kind` is its `type` field. */
  datatype Payload = Payload(
    kind: Option<string>,
    content: Option<string>,
    feedback: Option<Feedback>,
    phase: Option<string>,
    questionsRequired: Option<int>)

  const ResumeKind := "RESUME_DATA"
  const GithubKind := "GITHUB_DATA"
  const CodeFeedbackKind := "CODE_FEEDBACK"
  const PhaseChangeKind := "PHASE_CHANGE"
  const SkippedKind := "INTERVIEW_SKIPPED"
  const CompleteKind := "INTERVIEW_COMPLETE"

  /** The message the resume uploader publishes: `{type, content}`. */
  function ResumeData(content: string): Payload {
    Payload(Some(ResumeKind), Some(content), None, None, None)
  }

  /** The message the GitHub input publishes: `{type, content}`. */
  function GithubData(content: string): Payload {
    Payload(Some(GithubKind), Some(content), None, None, None)
  }
}

=== FILE: components.dfy ===
/** What the two upload widgets of the interview room's assets panel share:
    their four-valued status, the outcome of publishing on the data channel,
    and how a caught error becomes the text shown to the candidate. */
module Components {

  /** The widget's `status`: `idle`, `loading`, `success` or `error`. */
  datatype Status = Idle | Loading | Success | Error

  /** The outcome of `publishData` on the local participant. */
  datatype PublishOutcome = Published | PublishThrew(message: string)

  /** `err.message || fallback`: an empty message is replaced by the
      widget's fallback text, so a non-empty fallback is never lost. */
  function ErrorText(message: string, fallback: string): (r: string)
    ensures message != [] ==> r == message
    ensures message == [] ==> r == fallback
    ensures |fallback| > 0 ==> |r| > 0
  {
    if message == [] then fallback else message
  }
}

=== FILE: github_input.dfy ===
/** The GitHub widget of the interview room: it turns what the candidate
    typed into a user name, fetches that user's repositories, formats them as
    a text summary and publishes the summary to the agent. The HTTP request
    and the publish call are not modelled; their outcomes are parameters. */
module GithubInput {
  import opened Wrappers
  import opened Text
  import opened Components
  import opened Channel

  const BlankInputMessage := "Please enter a GitHub username or URL"
  const NotFoundMessage := "GitHub user not found"
  const FetchFailedMessage := "Failed to fetch GitHub data"

  // ---------------------------------------------------------------------
  // User name extraction
  // ---------------------------------------------------------------------

  const GithubHost := "github.com/"

  /** The input trimmed, with at most one trailing `/` removed. */
  function Normalise(input: string): (n: string)
    ensures n <= Trim(input) && |Trim(input)| - |n| <= 1
    ensures |n| < |Trim(input)| <==> Trim(input) != [] && Trim(input)[|Trim(input)| - 1] == '/'
  {
    var t := Trim(input);
    if |t| > 0 && t[|t| - 1] == '/' then t[..|t| - 1] else t
  }

  /** The pattern `github\.com\/([^\/]+)` matches at `i`: `github.com/`
      followed by at least one character other than `/`. */
  predicate MatchesAt(n: string, i: nat) {
    OccursAt(n, GithubHost, i) && i + |GithubHost| < |n| && n[i + |GithubHost|] != '/'
  }

  predicate HasMatch(n: string) {
    exists i: nat | i <= |n| :: MatchesAt(n, i)
  }

  /** The leftmost position at or after `from` where the pattern matches. */
  function FirstMatchFrom(n: string, from: nat): (r: Option<nat>)
    ensures r.Some? ==> from <= r.value && MatchesAt(n, r.value)
    ensures forall j: nat :: from <= j && (r.None? || j < r.value) ==> !MatchesAt(n, j)
    decreases |n| - from
  {
    if |n| < from + |GithubHost| then None
    else if MatchesAt(n, from) then Some(from)
    else FirstMatchFrom(n, from + 1)
  }

  /** The longest run of characters other than `/` starting at `start`: the
      pattern's greedy capture group. */
  function SegmentFrom(n: string, start: nat): (seg: string)
    requires start <= |n|
    ensures start + |seg| <= |n| && n[start..start + |seg|] == seg
    ensures '/' !in seg
    ensures start + |seg| == |n| || n[start + |seg|] == '/'
    decreases |n| - start
  {
    if start == |n| || n[start] == '/' then [] else [n[start]] + SegmentFrom(n, start + 1)
  }

  /** The pattern's capture at its leftmost match `i`: the longest run of
      characters other than `/` right after `github.com/`. */
  predicate IsCapture(n: string, i: nat, u: string) {
    && MatchesAt(n, i)
    && (forall j: nat :: j < i ==> !MatchesAt(n, j))
    && OccursAt(n, u, i + |GithubHost|)
    && '/' !in u
    && (i + |GithubHost| + |u| == |n| || n[i + |GithubHost| + |u|] == '/')
  }

  /** A maximal `/`-free run from `start` is no longer than any other. */
  lemma RunNoLonger(n: string, start: nat, u: string, v: string)
    requires OccursAt(n, u, start) && OccursAt(n, v, start) && '/' !in v
    requires start + |u| == |n| || n[start + |u|] == '/'
    ensures |v| <= |u|
  {
  }

  /** The capture is unique: the leftmost match and the maximal run leave no
      choice. */
  lemma CaptureUnique(n: string, i: nat, u: string, i': nat, u': string)
    requires IsCapture(n, i, u) && IsCapture(n, i', u')
    ensures i == i' && u == u'
  {
    var start := i + |GithubHost|;
    RunNoLonger(n, start, u, u');
    RunNoLonger(n, start, u', u);
    assert u == n[start..start + |u|] == u';
  }

  /** The user name in already-normalised text: the capture at the first
      match of `github\.com\/([^\/]+)`, or the whole text when the pattern
      does not match. */
  function UsernameOf(n: string): (u: string)
    ensures HasMatch(n) ==> |u| > 0 && Contains(n, GithubHost + u)
    ensures HasMatch(n) ==> exists i: nat :: IsCapture(n, i, u)
    ensures !HasMatch(n) ==> u == n
  {
    match FirstMatchFrom(n, 0)
    case Some(i) =>
      var u := SegmentFrom(n, i + |GithubHost|);
      assert n[i..i + |GithubHost| + |u|] == GithubHost + u;
      assert OccursAt(n, GithubHost + u, i);
      assert IsCapture(n, i, u);
      u
    case None => n
  }

  /** `extractUsername`: the user name in the normalised input. */
  function ExtractUsername(input: string): (u: string)
    ensures HasMatch(Normalise(input)) ==> |u| > 0 && Contains(Normalise(input), GithubHost + u)
    ensures HasMatch(Normalise(input)) ==> exists i: nat :: IsCapture(Normalise(input), i, u)
    ensures !HasMatch(Normalise(input)) ==> u == Normalise(input)
  {
    UsernameOf(Normalise(input))
  }

  const ProfileUrlPrefix := "https://github.com/"

  /** A user name as GitHub shows it: non-empty, without `/`, and neither
      starting nor ending with white space. */
  predicate IsPlainUsername(u: string) {
    |u| > 0 && '/' !in u && !IsSpace(u[0]) && !IsSpace(u[|u| - 1])
  }

  /** A plain user name has no match of the pattern, which needs a `/`. */
  lemma PlainUsernameHasNoMatch(u: string)
    requires '/' !in u
    ensures !HasMatch(u)
  {
    forall i: nat | i <= |u| ensures !MatchesAt(u, i) {
      if OccursAt(u, GithubHost, i) {
        HostHasSlash(u, i);
      }
    }
  }

  /** Every occurrence of the host brings its `/` with it. */
  lemma HostHasSlash(s: string, i: nat)
    requires OccursAt(s, GithubHost, i)
    ensures '/' in s
  {
    assert s[i + 10] == s[i..i + 11][10] == '/';
  }

  /** The profile URL of a plain user name, with or without a trailing `/`,
      normalises to the URL without it. */
  lemma NormaliseProfileUrl(u: string, input: string)
    requires IsPlainUsername(u)
    requires input == ProfileUrlPrefix + u || input == ProfileUrlPrefix + u + "/"
    ensures Normalise(input) == ProfileUrlPrefix + u
  {
    var url := ProfileUrlPrefix + u;
    assert input[0] == 'h';
    if input == url {
      assert input[|input| - 1] == u[|u| - 1];
      TrimNoOuterSpace(input);
    } else {
      assert input[|input| - 1] == '/';
      TrimNoOuterSpace(input);
      assert input[..|input| - 1] == url;
    }
  }

  /** In a profile URL the pattern first matches at the host, and the user
      name is what it captures. */
  lemma ProfileUrlMatch(u: string)
    requires IsPlainUsername(u)
    ensures FirstMatchFrom(ProfileUrlPrefix + u, 0) == Some(8)
    ensures SegmentFrom(ProfileUrlPrefix + u, 8 + |GithubHost|) == u
  {
    var n := ProfileUrlPrefix + u;
    assert n[8..19] == GithubHost;
    assert MatchesAt(n, 8);
    assert 'g' !in ProfileUrlPrefix[..8];
    forall j: nat | j < 8 ensures !MatchesAt(n, j) {
      assert n[j] == ProfileUrlPrefix[..8][j] != 'g';
    }
    var seg := SegmentFrom(n, 19);
    assert n[19..] == u;
    assert seg == n[19..19 + |seg|] == u;
  }

  /** A bare user name is taken as it is. */
  lemma BareUsername(u: string)
    requires IsPlainUsername(u)
    ensures ExtractUsername(u) == u
  {
    TrimNoOuterSpace(u);
    PlainUsernameHasNoMatch(u);
  }

  /** A profile URL, with or without a trailing `/`, gives its user name. */
  lemma ProfileUrlUsername(u: string, input: string)
    requires IsPlainUsername(u)
    requires input == ProfileUrlPrefix + u || input == ProfileUrlPrefix + u + "/"
    ensures ExtractUsername(input) == u
  {
    NormaliseProfileUrl(u, input);
    ProfileUrlMatch(u);
  }

  // ---------------------------------------------------------------------
  // Repository summary
  // ---------------------------------------------------------------------

  /** The fields of a repository the summary uses; a missing description or
      language is `None`. */
  datatype Repo = Repo(name: string, description: Option<string>, language: Option<string>, stars: nat)

  const NoDescription := "No description"
  const NoLanguage := "Not specified"
  const SummaryHeader := "GitHub Username: "
  const RepositoriesHeader := "Top Repositories:"

  /** JavaScript's `value || fallback` on an optional string. */
  function OrElse(value: Option<string>, fallback: string): (r: string)
    ensures |fallback| > 0 ==> |r| > 0
    ensures value.Some? && value.value != [] ==> r == value.value
    ensures value.None? || value.value == [] ==> r == fallback
  {
    match value
    case Some(v) => if v == [] then fallback else v
    case None => fallback
  }

  /** Line `number` of the summary: `<n>. <name> (<language>) - <description> [<stars> stars]`. */
  function RepoLine(number: nat, repo: Repo): string {
    Decimal(number) + ". " + repo.name + " (" + OrElse(repo.language, NoLanguage) + ") - "
      + OrElse(repo.description, NoDescription) + " [" + Decimal(repo.stars) + " stars]"
  }

  /** One line per repository, numbered from 1. */
  function RepoLines(repos: seq<Repo>): (lines: seq<string>)
    ensures |lines| == |repos|
    ensures forall k | 0 <= k < |repos| :: Decimal(k + 1) + ". " <= lines[k]
  {
    seq(|repos|, k requires 0 <= k < |repos| => RepoLine(k + 1, repos[k]))
  }

  /** The summary sent to the agent. */
  function SummaryText(username: string, repos: seq<Repo>): string {
    SummaryHeader + username + "\n" + RepositoriesHeader + "\n" + Join(RepoLines(repos), "\n")
  }

  /** No field of the repository holds a line break. */
  predicate SingleLine(repo: Repo) {
    && '\n' !in repo.name
    && (repo.description.Some? ==> '\n' !in repo.description.value)
    && (repo.language.Some? ==> '\n' !in repo.language.value)
  }

  /** A repository whose fields are single-line gives a single line. */
  lemma RepoLineIsOneLine(number: nat, repo: Repo)
    requires SingleLine(repo)
    ensures '\n' !in RepoLine(number, repo)
  {
    assert '\n' !in Decimal(number) && '\n' !in Decimal(repo.stars) by {
      assert !IsDigit('\n');
    }
  }

  /** The two header lines split off the front of the summary. */
  lemma SummaryHeaderLines(username: string, repos: seq<Repo>)
    requires '\n' !in username
    ensures Split(SummaryText(username, repos), '\n')
         == [SummaryHeader + username, RepositoriesHeader] + Split(Join(RepoLines(repos), "\n"), '\n')
  {
    var body := Join(RepoLines(repos), "\n");
    var first := SummaryHeader + username;
    var rest := RepositoriesHeader + ['\n'] + body;
    assert SummaryText(username, repos) == first + ['\n'] + rest;
    SplitPiece(first, rest, '\n');
    SplitPiece(RepositoriesHeader, body, '\n');
  }

  /** The repository lines split back into one line per repository. */
  lemma RepoLinesSplit(repos: seq<Repo>)
    requires forall k | 0 <= k < |repos| :: SingleLine(repos[k])
    ensures Split(Join(RepoLines(repos), "\n"), '\n') == if repos == [] then [[]] else RepoLines(repos)
  {
    var lines := RepoLines(repos);
    if repos != [] {
      forall k | 0 <= k < |lines| ensures '\n' !in lines[k] {
        RepoLineIsOneLine(k + 1, repos[k]);
      }
      SplitJoin(lines, '\n');
    }
  }

  /** Read line by line, the summary is the user-name header, the list
      header, and then exactly one line per repository in order (an empty
      last line when there is no repository). */
  lemma SummaryLines(username: string, repos: seq<Repo>)
    requires '\n' !in username
    requires forall k | 0 <= k < |repos| :: SingleLine(repos[k])
    ensures Split(SummaryText(username, repos), '\n')
         == [SummaryHeader + username, RepositoriesHeader] + (if repos == [] then [[]] else RepoLines(repos))
  {
    SummaryHeaderLines(username, repos);
    RepoLinesSplit(repos);
  }

  // ---------------------------------------------------------------------
  // The widget's states
  // ---------------------------------------------------------------------

  /** The text field, the status, and the error text. */
  datatype State = State(username: string, status: Status, error: string)

  const Initial := State([], Idle, [])

  /** The text field and the send button are disabled while loading and
      after success. */
  predicate Locked(status: Status) {
    status == Loading || status == Success
  }

  /** The candidate edits the text field. Editing clears an error status. */
  function Edit(st: State, text: string): (st': State)
    ensures Locked(st.status) ==> st' == st
    ensures !Locked(st.status) ==> st'.username == text && st'.status == Idle && st'.error == st.error
  {
    if Locked(st.status) then st
    else State(text, if st.status == Error then Idle else st.status, st.error)
  }

  /** The candidate presses Enter or the send button. A blank field is an
      error and fetches nothing; otherwise the widget starts loading and
      requests the extracted user name. */
  function Begin(st: State): (res: (State, Option<string>))
    ensures Locked(st.status) ==> res == (st, None)
    ensures !Locked(st.status) && IsBlank(st.username) ==>
      res.0 == st.(status := Error, error := BlankInputMessage) && res.1.None?
    ensures !Locked(st.status) && !IsBlank(st.username) ==>
      res.0 == st.(status := Loading, error := []) && res.1 == Some(ExtractUsername(st.username))
  {
    if Locked(st.status) then (st, None)
    else if Trim(st.username) == [] then (st.(status := Error, error := BlankInputMessage), None)
    else (st.(status := Loading, error := []), Some(ExtractUsername(st.username)))
  }

  /** The outcome of the repository request: an HTTP status with the decoded
      list, or the message of the exception `fetch` or `json` threw. */
  datatype FetchOutcome = Responded(httpStatus: int, repos: seq<Repo>) | FetchThrew(message: string)

  predicate IsOk(httpStatus: int) {
    200 <= httpStatus <= 299
  }

  /** The request for `username` completes: on a successful response the
      summary is published, and the widget ends in success exactly when both
      the request and the publish succeeded. An error always carries a
      non-empty message. */
  function Finish(st: State, username: string, fetch: FetchOutcome, publish: PublishOutcome)
    : (res: (State, Option<Payload>))
    requires st.status == Loading
    ensures res.0.username == st.username
    ensures res.0.status == Success || res.0.status == Error
    ensures res.0.status == Success <==> fetch.Responded? && IsOk(fetch.httpStatus) && publish.Published?
    ensures res.1.Some? <==> res.0.status == Success
    ensures res.1.Some? ==> res.1.value == GithubData(SummaryText(username, fetch.repos))
    ensures fetch.Responded? && fetch.httpStatus == 404 ==> res.0.error == NotFoundMessage
    ensures res.0.status == Error ==> |res.0.error| > 0
  {
    match fetch
    case FetchThrew(message) =>
      (st.(status := Error, error := ErrorText(message, FetchFailedMessage)), None)
    case Responded(code, repos) =>
      if !IsOk(code) then
        var message := if code == 404 then NotFoundMessage else FetchFailedMessage;
        (st.(status := Error, error := message), None)
      else
        var payload := GithubData(SummaryText(username, repos));
        match publish
        case Published => (st.(status := Success, error := []), Some(payload))
        case PublishThrew(message) =>
          (st.(status := Error, error := ErrorText(message, FetchFailedMessage)), None)
  }

  /** The status moves idle -> loading -> success | error; an error returns
      to idle on an edit or to loading on a new attempt. */
  predicate Allowed(from: Status, to: Status) {
    || from == to
    || (from == Idle && (to == Loading || to == Error))
    || (from == Error && (to == Idle || to == Loading))
    || (from == Loading && (to == Success || to == Error))
  }

  /** Every event moves the status along an allowed edge, and success is
      final. */
  lemma StatusMachine(st: State, text: string, username: string, fetch: FetchOutcome, publish: PublishOutcome)
    ensures Allowed(st.status, Edit(st, text).status)
    ensures Allowed(st.status, Begin(st).0.status)
    ensures st.status == Loading ==> Allowed(Loading, Finish(st, username, fetch, publish).0.status)
    ensures st.status == Success ==> Edit(st, text).status == Success && Begin(st).0.status == Success
  {
  }
}

=== FILE: prompts.dfy ===
/** The interviewer's system prompts. Every prompt is the shared identity
    block, then one interview-flow block (the document-collection flow or the
    direct flow), then a block describing the role. The model records that
    composition; the wording of each block is a parameter of `Render`, so the
    lemmas below hold whatever the blocks say. */
module Prompts {
  import opened Text

  /** The role-context blocks, one per prompt constant. */
  datatype Role =
    | FrontendRole | BackendRole | FullstackRole | DevopsRole | AimlRole
    | DsaRole | HackathonRole | HrRole | GeneralRole

  /** The blocks a prompt is concatenated from. */
  datatype Segment =
    | CoreIdentity            // who the interviewer is and how it behaves
    | DocumentFlow            // resume and GitHub rounds, then a coding challenge
    | DirectFlow              // straight into questions, no documents
    | RoleContext(role: Role)

  type Prompt = seq<Segment>

  function Compose(flow: Segment, role: Role): Prompt {
    [CoreIdentity, flow, RoleContext(role)]
  }

  const PromptFrontend: Prompt := Compose(DocumentFlow, FrontendRole)
  const PromptBackend: Prompt := Compose(DocumentFlow, BackendRole)
  const PromptFullstack: Prompt := Compose(DocumentFlow, FullstackRole)
  const PromptDevops: Prompt := Compose(DocumentFlow, DevopsRole)
  const PromptAiml: Prompt := Compose(DocumentFlow, AimlRole)
  const PromptDsa: Prompt := Compose(DirectFlow, DsaRole)
  const PromptHackathon: Prompt := Compose(DirectFlow, HackathonRole)
  const PromptHr: Prompt := Compose(DirectFlow, HrRole)
  const PromptDefault: Prompt := Compose(DocumentFlow, GeneralRole)

  const DefaultTrack := "default"

  /** The exported table from track name to prompt. */
  const InterviewPrompts: map<string, Prompt> := map[
    "frontend" := PromptFrontend,
    "backend" := PromptBackend,
    "fullstack" := PromptFullstack,
    "devops" := PromptDevops,
    "aiml" := PromptAiml,
    "dsa" := PromptDsa,
    "hackathon" := PromptHackathon,
    "hr" := PromptHr,
    "general" := PromptDefault,
    DefaultTrack := PromptDefault
  ]

  /** Tracks whose prompt collects a resume and a GitHub profile. */
  const DocumentTracks: set<string> :=
    {"frontend", "backend", "fullstack", "devops", "aiml", "general", "default"}

  /** Tracks whose prompt goes straight to the questions. */
  const DirectTracks: set<string> := {"dsa", "hackathon", "hr"}

  /** The prompt text: the wording of each block, concatenated in order. */
  function Render(p: Prompt, text: Segment -> string): string {
    if |p| == 0 then [] else text(p[0]) + Render(p[1..], text)
  }

  /** The agent's prompt for a track, falling back to the default prompt for
      a name the table does not hold. */
  function PromptFor(track: string): (p: Prompt)
    ensures p in InterviewPrompts.Values
    ensures |p| == 3 && p[0] == CoreIdentity
    ensures p[1] == (if track in DirectTracks then DirectFlow else DocumentFlow)
    ensures track in InterviewPrompts ==> p == InterviewPrompts[track]
    ensures track !in InterviewPrompts ==> p == InterviewPrompts[DefaultTrack]
  {
    var key := if track in InterviewPrompts then track else DefaultTrack;
    assert InterviewPrompts[key] in InterviewPrompts.Values;
    InterviewPrompts[key]
  }

  /** The table has exactly ten tracks, split into document and direct tracks. */
  lemma TrackKeys()
    ensures InterviewPrompts.Keys == DocumentTracks + DirectTracks
    ensures DocumentTracks !! DirectTracks
    ensures |InterviewPrompts.Keys| == 10
  {
    assert InterviewPrompts.Keys == {"frontend", "backend", "fullstack", "devops", "aiml",
                                     "dsa", "hackathon", "hr", "general", "default"};
  }

  /** A track's prompt uses the document flow exactly when it is a document
      track, and the direct flow exactly when it is a direct track. */
  lemma FlowOfTrack(track: string)
    requires track in InterviewPrompts
    ensures DocumentFlow in InterviewPrompts[track] <==> track in DocumentTracks
    ensures DirectFlow in InterviewPrompts[track] <==> track in DirectTracks
  {
  }

  /** Two different tracks share a prompt only when they are `general` and
      `default`. */
  lemma SharedPrompt(a: string, b: string)
    requires a in InterviewPrompts && b in InterviewPrompts && a != b
    ensures InterviewPrompts[a] == InterviewPrompts[b] <==> {a, b} == {"general", DefaultTrack}
  {
  }

  /** The rendered prompt of a three-block composition. */
  lemma RenderCompose(flow: Segment, role: Role, text: Segment -> string)
    ensures Render(Compose(flow, role), text)
         == text(CoreIdentity) + text(flow) + text(RoleContext(role))
  {
    var p := Compose(flow, role);
    assert p[1..][1..][1..] == [];
    assert Render(p[1..][1..], text) == text(RoleContext(role)) + Render([], text);
  }

  /** Whatever the wording, every rendered prompt starts with the identity
      block and has its flow block immediately after it. */
  lemma RenderedPromptLayout(track: string, text: Segment -> string)
    ensures var r := Render(PromptFor(track), text);
      && text(CoreIdentity) <= r
      && OccursAt(r, text(PromptFor(track)[1]), |text(CoreIdentity)|)
  {
    var p := PromptFor(track);
    RenderCompose(p[1], p[2].role, text);
    assert p == Compose(p[1], p[2].role);
    var r := Render(p, text);
    var n := |text(CoreIdentity)|;
    assert r[..n] == text(CoreIdentity);
    assert r[n..n + |text(p[1])|] == text(p[1]);
  }
}

=== FILE: resume_uploader.dfy ===
/** The resume widget of the interview room: the candidate picks a PDF, its
    text is extracted page by page, checked for length, cut to size and
    published to the agent. The PDF reader is not modelled: what it returns
    (the text items of each page, or the message of the exception it threw)
    is a parameter, and so is the outcome of the publish call. */
module ResumeUploader {
  import opened Wrappers
  import opened Text
  import opened Components
  import opened Channel

  const PdfMarker := "pdf"
  const NotPdfMessage := "Please upload a PDF file"
  const NoTextMessage := "Could not extract meaningful text from PDF"
  const ProcessFailedMessage := "Failed to process PDF"

  /** Shorter extracted text is rejected as not meaningful. */
  const MinTextLength := 50
  /** At most this many characters of the text are sent. */
  const MaxContentLength := 8000

  // ---------------------------------------------------------------------
  // Text extraction
  // ---------------------------------------------------------------------

  /** A page's text: its text items joined by single spaces. */
  function PageText(items: seq<string>): string {
    Join(items, " ")
  }

  /** The text of every page, in page order. */
  function PageTexts(pages: seq<seq<string>>): seq<string> {
    seq(|pages|, k requires 0 <= k < |pages| => PageText(pages[k]))
  }

  /** The text accumulated by the page loop: each page's text followed by a
      line break, first page first. */
  function Accumulated(pages: seq<seq<string>>): string {
    if |pages| == 0 then []
    else Accumulated(pages[..|pages| - 1]) + PageText(pages[|pages| - 1]) + "\n"
  }

  /** The extracted text: the accumulated text, trimmed. */
  function ExtractText(pages: seq<seq<string>>): (text: string)
    ensures text == [] || (!IsSpace(text[0]) && !IsSpace(text[|text| - 1]))
  {
    Trim(Accumulated(pages))
  }

  /** Appending one more part to a join adds a separator and the part. */
  lemma {:induction false} JoinSnoc(parts: seq<string>, x: string, sep: string)
    requires |parts| >= 1
    ensures Join(parts + [x], sep) == Join(parts, sep) + sep + x
  {
    if |parts| == 1 {
      assert (parts + [x])[1..] == [x];
    } else {
      assert (parts + [x])[1..] == parts[1..] + [x];
      JoinSnoc(parts[1..], x, sep);
    }
  }

  /** The loop's text is the page texts joined by line breaks, with one
      trailing line break. */
  lemma {:induction false} AccumulatedIsJoin(pages: seq<seq<string>>)
    requires |pages| >= 1
    ensures Accumulated(pages) == Join(PageTexts(pages), "\n") + "\n"
  {
    var init := pages[..|pages| - 1];
    var last := PageText(pages[|pages| - 1]);
    if |pages| == 1 {
      assert Accumulated(init) == [];
      assert PageTexts(pages) == [last];
    } else {
      AccumulatedIsJoin(init);
      assert PageTexts(pages) == PageTexts(init) + [last];
      JoinSnoc(PageTexts(init), last, "\n");
    }
  }

  /** The extracted text is the page texts, joined by line breaks and
      trimmed; the last page's line break never survives the trim. */
  lemma ExtractTextIsJoin(pages: seq<seq<string>>)
    ensures ExtractText(pages) == Trim(Join(PageTexts(pages), "\n"))
  {
    if |pages| >= 1 {
      AccumulatedIsJoin(pages);
      TrimAppendSpace(Join(PageTexts(pages), "\n"), '\n');
    }
  }

  /** `text.substring(0, 8000)`. */
  function Truncate(text: string): (r: string)
    ensures r <= text
    ensures |r| == if |text| <= MaxContentLength then |text| else MaxContentLength
  {
    if |text| <= MaxContentLength then text else text[..MaxContentLength]
  }

  /** Cutting to size twice is cutting once, and text within the limit is
      left alone. */
  lemma TruncateIdempotent(text: string)
    ensures Truncate(Truncate(text)) == Truncate(text)
    ensures |text| <= MaxContentLength ==> Truncate(text) == text
  {
  }

  // ---------------------------------------------------------------------
  // The widget's states
  // ---------------------------------------------------------------------

  /** The status, the chosen file's name and the error text. */
  datatype State = State(status: Status, fileName: string, error: string)

  const Initial := State(Idle, [], [])

  /** The file input is disabled only while loading. */
  predicate InputDisabled(st: State) {
    st.status == Loading
  }

  /** The chosen file: its name and MIME type. */
  datatype File = File(name: string, mimeType: string)

  /** The candidate chooses a file (or dismisses the picker). A file whose
      type does not mention `pdf` is rejected without touching the name;
      otherwise the widget records the name and starts loading. */
  function Choose(st: State, file: Option<File>): (st': State)
    ensures file.None? || InputDisabled(st) ==> st' == st
    ensures file.Some? && !InputDisabled(st) && !Contains(file.value.mimeType, PdfMarker) ==>
      st' == st.(status := Error, error := NotPdfMessage)
    ensures file.Some? && !InputDisabled(st) && Contains(file.value.mimeType, PdfMarker) ==>
      st' == State(Loading, file.value.name, [])
  {
    if InputDisabled(st) then st
    else match file
      case None => st
      case Some(f) =>
        if !Contains(f.mimeType, PdfMarker) then st.(status := Error, error := NotPdfMessage)
        else st.(fileName := f.name, status := Loading, error := [])
  }

  /** What the PDF reader produced: the text items of each page in order, or
      the message of the exception it threw. */
  datatype Extraction = Extracted(pages: seq<seq<string>>) | ExtractionThrew(message: string)

  /** Extraction completes. Text of fewer than 50 characters is an error;
      otherwise its first 8000 characters are published, and the widget ends
      in success exactly when the publish succeeded. */
  function Finish(st: State, extraction: Extraction, publish: PublishOutcome)
    : (res: (State, Option<Payload>))
    requires st.status == Loading
    ensures res.0.fileName == st.fileName
    ensures res.0.status == Success || res.0.status == Error
    ensures res.0.status == Success <==>
      extraction.Extracted? && |ExtractText(extraction.pages)| >= MinTextLength && publish.Published?
    ensures res.1.Some? <==> res.0.status == Success
    ensures res.1.Some? ==> res.1.value == ResumeData(Truncate(ExtractText(extraction.pages)))
    ensures extraction.Extracted? && |ExtractText(extraction.pages)| < MinTextLength ==>
      res.0.error == NoTextMessage
    ensures res.0.status == Error ==> |res.0.error| > 0
    ensures res.0.status == Success ==> res.0.error == []
  {
    match extraction
    case ExtractionThrew(message) =>
      (st.(status := Error, error := ErrorText(message, ProcessFailedMessage)), None)
    case Extracted(pages) =>
      var text := ExtractText(pages);
      if |text| < MinTextLength then (st.(status := Error, error := NoTextMessage), None)
      else
        match publish
        case Published => (st.(status := Success, error := []), Some(ResumeData(Truncate(text))))
        case PublishThrew(message) =>
          (st.(status := Error, error := ErrorText(message, ProcessFailedMessage)), None)
  }

  /** Whatever is published holds between 50 and 8000 characters of the
      extracted text, taken from its start. */
  lemma PublishedContentBounds(st: State, extraction: Extraction, publish: PublishOutcome)
    requires st.status == Loading
    ensures var res := Finish(st, extraction, publish);
      res.1.Some? ==>
        && res.1.value.content.Some?
        && MinTextLength <= |res.1.value.content.value| <= MaxContentLength
        && res.1.value.content.value <= ExtractText(extraction.pages)
  {
  }

  /** The status moves idle -> loading -> success | error; from success or
      error a new file starts over, and a non-PDF file is an error from any
      state but loading. */
  predicate Allowed(from: Status, to: Status) {
    || from == to
    || (from != Loading && (to == Loading || to == Error))
    || (from == Loading && (to == Success || to == Error))
  }

  /** Every event moves the status along an allowed edge; nothing returns to
      idle, and nothing but completion leaves loading. */
  lemma StatusMachine(st: State, file: Option<File>, extraction: Extraction, publish: PublishOutcome)
    ensures Allowed(st.status, Choose(st, file).status)
    ensures Choose(st, file).status == Idle ==> st.status == Idle
    ensures st.status == Loading ==> Choose(st, file) == st
    ensures st.status == Loading ==> Allowed(Loading, Finish(st, extraction, publish).0.status)
  {
  }
}

=== FILE: sessions.dfy ===
/** How the pieces meet in one interview: the dashboard routes to
    `/interview/<track>`, the interview room asks the token server for a
    token of that type, the token names the room, the agent reads the type
    back from the room name, and the two upload widgets' messages reach the
    agent's data handler. */
module Sessions {
  import opened Wrappers
  import opened Text
  import Prompts
  import TokenServer
  import Agent
  import Components
  import GithubInput
  import ResumeUploader

  /** The tracks the dashboard's cards route to, in card order. */
  const DashboardTracks: seq<string> := ["frontend", "backend", "fullstack", "devops", "aiml", "hr", "hackathon"]

  /** The track of the dashboard's main call to action. */
  const HeroTrack := "general"

  /** The request target the interview room fetches its token from; an
      empty route parameter asks for `default`. */
  function TokenTarget(routeType: string): (target: string)
    ensures TokenServer.TokenRoute <= target
  {
    TokenServer.TokenRoute + "?" + TokenServer.TypeField + "="
      + (if routeType == [] then TokenServer.DefaultType else routeType)
  }

  /** Every track the dashboard offers has its own prompt; `dsa` has a prompt
      but no card. */
  lemma DashboardTracksHavePrompts()
    ensures forall k | 0 <= k < |DashboardTracks| :: DashboardTracks[k] in Prompts.InterviewPrompts
    ensures HeroTrack in Prompts.InterviewPrompts
    ensures "dsa" in Prompts.InterviewPrompts && "dsa" !in DashboardTracks
  {
  }

  /** Every occurrence of the marker starts with its `-` and has no other. */
  lemma MarkerDashes(s: string, j: nat, i: nat)
    requires OccursAt(s, Agent.InterviewMarker, j)
    requires j <= i < j + |Agent.InterviewMarker|
    ensures s[i] == '-' <==> i == j
  {
    assert s[i] == s[j..j + |Agent.InterviewMarker|][i - j] == Agent.InterviewMarker[i - j];
  }

  /** A name without `-` holds no marker. */
  lemma NoDashNoMarker(t: string)
    requires '-' !in t
    ensures !Contains(t, Agent.InterviewMarker)
  {
    forall j: nat | j <= |t| ensures !OccursAt(t, Agent.InterviewMarker, j) {
      if OccursAt(t, Agent.InterviewMarker, j) {
        MarkerDashes(t, j, j);
      }
    }
  }

  /** The agent reads back the type the token server put into the room name,
      provided the type itself holds no marker. */
  lemma {:induction false} RoomNameRoundTrip(t: string, sid: string)
    requires !Contains(t, Agent.InterviewMarker)
    ensures Agent.ExtractType(TokenServer.RoomName(t, sid)) == t
  {
    var room := TokenServer.RoomName(t, sid);
    var marker := Agent.InterviewMarker;
    var rest := TokenServer.RoomInfix + sid;
    assert room == t + rest;
    assert room[|t|..|t| + |marker|] == marker;
    assert OccursAt(room, marker, |t|);
    assert room[|t|] == '-';
    forall j: nat | j < |t| ensures !OccursAt(room, marker, j) {
      if j + |marker| <= |t| {
        OccursInPrefix(t, rest, marker, j);
      } else if OccursAt(room, marker, j) {
        MarkerDashes(room, j, |t|);
      }
    }
    var e := Agent.ExtractType(room);
    assert |e| == |t|;
    assert e == room[..|t|] == t;
  }

  /** A track the route carries, once issued, comes back to the agent as the
      same track, and the agent interviews with that track's prompt. */
  lemma SessionUsesItsPrompt(track: string, uuid: string, sign: TokenServer.Claims -> TokenServer.Signing,
                             url: Option<string>)
    requires track in Prompts.InterviewPrompts
    requires TokenServer.IsUuidText(uuid)
    ensures var r := TokenServer.HandleGet(TokenTarget(track), uuid, sign, url);
      r.Issued? ==>
        && r.response.interviewType == track
        && Agent.ResolveType(r.response.room) == track
        && Prompts.PromptFor(Agent.ResolveType(r.response.room)) == Prompts.InterviewPrompts[track]
  {
    TrackIsQuerySafe(track);
    TokenServer.TypeQueryRoundTrip(track);
    NoDashNoMarker(track);
    RoomNameRoundTrip(track, TokenServer.SessionId(uuid));
  }

  /** The prompt table's track names are plain lower-case words. */
  lemma TrackIsQuerySafe(track: string)
    requires track in Prompts.InterviewPrompts
    ensures track != [] && TokenServer.QuerySafe(track) && '-' !in track
  {
  }

  /** A route type the prompt table does not know is echoed by the token
      server, but the agent falls back to the default interview. */
  lemma UnknownTrackFallsBack(t: string, uuid: string, sign: TokenServer.Claims -> TokenServer.Signing,
                              url: Option<string>)
    requires t != [] && TokenServer.QuerySafe(t) && '-' !in t
    requires t !in Prompts.InterviewPrompts
    requires TokenServer.IsUuidText(uuid)
    ensures var r := TokenServer.HandleGet(TokenTarget(t), uuid, sign, url);
      r.Issued? ==>
        && r.response.interviewType == t
        && Agent.ResolveType(r.response.room) == Prompts.DefaultTrack
  {
    TokenServer.TypeQueryRoundTrip(t);
    NoDashNoMarker(t);
    RoomNameRoundTrip(t, TokenServer.SessionId(uuid));
  }

  /** The participant a token is issued to is the one the agent takes for
      the human candidate. */
  lemma IssuedIdentityIsHuman(target: string, uuid: string, sign: TokenServer.Claims -> TokenServer.Signing,
                              url: Option<string>)
    requires TokenServer.IsUuidText(uuid)
    ensures var r := TokenServer.HandleGet(target, uuid, sign, url);
      r.Issued? ==> Agent.IsHuman(r.response.identity) && Agent.IsHuman(r.claims.identity)
  {
  }

  /** A published resume reaches the agent as a resume reply whose text has
      between 50 and 8000 characters. */
  lemma ResumeDeliveredToAgent(st: ResumeUploader.State, extraction: ResumeUploader.Extraction,
                               publish: Components.PublishOutcome)
    requires st.status == Components.Loading
    ensures var res := ResumeUploader.Finish(st, extraction, publish);
      res.1.Some? ==>
        var reply := Agent.HandleData(res.1);
        && reply.Some? && reply.value.ResumeReply?
        && ResumeUploader.MinTextLength <= |reply.value.resume| <= ResumeUploader.MaxContentLength
  {
    ResumeUploader.PublishedContentBounds(st, extraction, publish);
  }

  /** A published GitHub summary reaches the agent as a profile reply with the
      summary text unchanged. */
  lemma GithubDeliveredToAgent(st: GithubInput.State, username: string, fetch: GithubInput.FetchOutcome,
                               publish: Components.PublishOutcome)
    requires st.status == Components.Loading
    ensures var res := GithubInput.Finish(st, username, fetch, publish);
      res.1.Some? ==>
        Agent.HandleData(res.1) == Some(Agent.GithubReply(GithubInput.SummaryText(username, fetch.repos)))
  {
  }
}

=== FILE: text.dfy ===
/** String operations shared by the token server, the agent and the frontend
    components: substring search, JavaScript's `trim`, joining and splitting,
    and decimal rendering of counters. A string is a sequence of `char`. */
module Text {
  import opened Wrappers

  // ---------------------------------------------------------------------
  // Substring search
  // ---------------------------------------------------------------------

  /** `pat` occurs in `s` starting at index `i`. */
  predicate OccursAt(s: string, pat: string, i: nat) {
    i + |pat| <= |s| && s[i..i + |pat|] == pat
  }

  /** Python's `pat in s`, JavaScript's `s.includes(pat)`. */
  predicate Contains(s: string, pat: string) {
    exists i: nat | i <= |s| :: OccursAt(s, pat, i)
  }

  /** The first occurrence of `pat` in `s` at or after `from`. */
  function IndexFrom(s: string, pat: string, from: nat): (r: Option<nat>)
    ensures r.Some? ==> from <= r.value && OccursAt(s, pat, r.value)
    ensures forall j: nat :: from <= j && (r.None? || j < r.value) ==> !OccursAt(s, pat, j)
    decreases |s| - from
  {
    if |s| < from + |pat| then None
    else if s[from..from + |pat|] == pat then Some(from)
    else IndexFrom(s, pat, from + 1)
  }

  /** The index of the first occurrence of `pat` in `s`, if any. */
  function IndexOf(s: string, pat: string): (r: Option<nat>)
    ensures r.None? <==> !Contains(s, pat)
    ensures r.Some? ==> OccursAt(s, pat, r.value)
    ensures r.Some? ==> forall j: nat :: j < r.value ==> !OccursAt(s, pat, j)
  {
    IndexFrom(s, pat, 0)
  }

  /** The first position of the character `c` in `s`, if any. */
  function FindChar(s: string, c: char): (r: Option<nat>)
    ensures r.None? <==> c !in s
    ensures r.Some? ==> r.value < |s| && s[r.value] == c && c !in s[..r.value]
  {
    if |s| == 0 then None
    else if s[0] == c then Some(0)
    else match FindChar(s[1..], c)
      case Some(i) => Some(i + 1)
      case None => None
  }

  /** An occurrence lying wholly inside `a` is an occurrence in `a + b`, and back. */
  lemma OccursInPrefix(a: string, b: string, pat: string, i: nat)
    requires i + |pat| <= |a|
    ensures OccursAt(a + b, pat, i) <==> OccursAt(a, pat, i)
  {
    assert (a + b)[i..i + |pat|] == a[i..i + |pat|];
  }

  // ---------------------------------------------------------------------
  // White space and JavaScript's String.prototype.trim
  // ---------------------------------------------------------------------

  /** The characters JavaScript's `trim` removes: the WhiteSpace and
      LineTerminator productions of ECMAScript (tab, line feed, vertical tab,
      form feed, carriage return, the Unicode space separators, the line and
      paragraph separators, and the byte-order mark). */
  predicate IsSpace(c: char) {
    || c == '\t' || c == '\n' || c == '\U{B}' || c == '\U{C}' || c == '\r'
    || c == ' ' || c == '\U{A0}' || c == '\U{1680}'
    || ('\U{2000}' <= c <= '\U{200A}')
    || c == '\U{2028}' || c == '\U{2029}' || c == '\U{202F}' || c == '\U{205F}'
    || c == '\U{3000}' || c == '\U{FEFF}'
  }

  /** Every character of `s` is white space (the empty string included). */
  predicate IsBlank(s: string) {
    forall k | 0 <= k < |s| :: IsSpace(s[k])
  }

  /** The end of the run of white space that starts at `i`. */
  function SpaceRunEnd(s: string, i: nat): (e: nat)
    requires i <= |s|
    ensures i <= e <= |s|
    ensures forall k | i <= k < e :: IsSpace(s[k])
    ensures e == |s| || !IsSpace(s[e])
    decreases |s| - i
  {
    if i < |s| && IsSpace(s[i]) then SpaceRunEnd(s, i + 1) else i
  }

  /** The start of the run of white space that ends at `j`, going no lower
      than `lo`. */
  function SpaceRunStart(s: string, lo: nat, j: nat): (b: nat)
    requires lo <= j <= |s|
    ensures lo <= b <= j
    ensures forall k | b <= k < j :: IsSpace(s[k])
    ensures b == lo || !IsSpace(s[b - 1])
    decreases j
  {
    if lo < j && IsSpace(s[j - 1]) then SpaceRunStart(s, lo, j - 1) else j
  }

  /** JavaScript's `s.trim()`: the middle of `s` between its leading and
      trailing white space, which is empty exactly when `s` is blank. */
  function Trim(s: string): (r: string)
    ensures r == [] <==> IsBlank(s)
    ensures r == [] || (!IsSpace(r[0]) && !IsSpace(r[|r| - 1]))
    ensures exists i: nat :: OccursAt(s, r, i) && IsBlank(s[..i]) && IsBlank(s[i + |r|..])
  {
    var a := SpaceRunEnd(s, 0);
    var b := SpaceRunStart(s, a, |s|);
    assert OccursAt(s, s[a..b], a);
    assert IsBlank(s[..a]) by {
      forall k | 0 <= k < a ensures IsSpace(s[..a][k]) {
        assert s[..a][k] == s[k];
      }
    }
    assert IsBlank(s[b..]) by {
      forall k | 0 <= k < |s| - b ensures IsSpace(s[b..][k]) {
        assert s[b..][k] == s[b + k];
      }
    }
    s[a..b]
  }

  /** A string that neither starts nor ends with white space is its own trim. */
  lemma TrimNoOuterSpace(s: string)
    requires |s| > 0 && !IsSpace(s[0]) && !IsSpace(s[|s| - 1])
    ensures Trim(s) == s
  {
    assert SpaceRunEnd(s, 0) == 0;
    assert SpaceRunStart(s, 0, |s|) == |s|;
  }

  /** A character appended after the run does not move its end. */
  lemma {:induction false} SpaceRunEndAppend(s: string, c: char, i: nat)
    requires i <= |s| && SpaceRunEnd(s, i) < |s|
    ensures SpaceRunEnd(s + [c], i) == SpaceRunEnd(s, i)
    decreases |s| - i
  {
    assert (s + [c])[i] == s[i];
    if IsSpace(s[i]) {
      SpaceRunEndAppend(s, c, i + 1);
    }
  }

  /** A character appended after `j` does not move the start of the run
      ending at `j`. */
  lemma {:induction false} SpaceRunStartAppend(s: string, c: char, lo: nat, j: nat)
    requires lo <= j <= |s|
    ensures SpaceRunStart(s + [c], lo, j) == SpaceRunStart(s, lo, j)
    decreases j
  {
    if lo < j {
      assert (s + [c])[j - 1] == s[j - 1];
      SpaceRunStartAppend(s, c, lo, j - 1);
    }
  }

  /** Blank text stays blank when white space is appended. */
  lemma BlankAppend(s: string, c: char)
    requires IsBlank(s) && IsSpace(c)
    ensures IsBlank(s + [c])
  {
    forall k | 0 <= k < |s + [c]| ensures IsSpace((s + [c])[k]) {
      if k < |s| { assert (s + [c])[k] == s[k]; }
    }
  }

  /** Appending one white-space character does not change the trimmed text. */
  lemma TrimAppendSpace(s: string, c: char)
    requires IsSpace(c)
    ensures Trim(s + [c]) == Trim(s)
  {
    var t := s + [c];
    if IsBlank(s) {
      BlankAppend(s, c);
    } else {
      var a := SpaceRunEnd(s, 0);
      SpaceRunEndAppend(s, c, 0);
      assert SpaceRunStart(t, a, |t|) == SpaceRunStart(t, a, |s|);
      SpaceRunStartAppend(s, c, a, |s|);
      var b := SpaceRunStart(s, a, |s|);
      assert t[a..b] == s[a..b];
    }
  }

  // ---------------------------------------------------------------------
  // Joining and splitting
  // ---------------------------------------------------------------------

  /** Python's `sep.join(parts)`, JavaScript's `parts.join(sep)`. */
  function Join(parts: seq<string>, sep: string): string
  {
    if |parts| == 0 then []
    else if |parts| == 1 then parts[0]
    else parts[0] + sep + Join(parts[1..], sep)
  }

  /** Python's `s.split(sep)` (as `parse_qsl` splits a query on `&`) and
      JavaScript's `s.split(sep)`, for a one-character separator: the pieces
      between separators, in order, with an empty piece wherever two
      separators meet or one ends the string. */
  function Split(s: string, sep: char): (parts: seq<string>)
    ensures |parts| >= 1
    ensures forall k | 0 <= k < |parts| :: sep !in parts[k]
    decreases |s|
  {
    if |s| == 0 then [[]]
    else
      var rest := Split(s[1..], sep);
      if s[0] == sep then [[]] + rest else [[s[0]] + rest[0]] + rest[1..]
  }

  /** Text without a separator glues onto the first piece of what follows. */
  lemma {:induction false} SplitAppend(a: string, c: string, sep: char)
    requires sep !in a
    ensures Split(a + c, sep) == [a + Split(c, sep)[0]] + Split(c, sep)[1..]
    decreases |a|
  {
    if |a| > 0 {
      assert (a + c)[1..] == a[1..] + c;
      SplitAppend(a[1..], c, sep);
      assert [a[0]] + (a[1..] + Split(c, sep)[0]) == a + Split(c, sep)[0];
    } else {
      var p := Split(c, sep);
      assert a + c == c;
      assert a + p[0] == p[0];
      assert [p[0]] + p[1..] == p;
    }
  }

  /** Every part of a join occurs in the joined text. */
  lemma {:induction false} JoinContainsPart(parts: seq<string>, sep: string, k: nat)
    requires k < |parts|
    ensures Contains(Join(parts, sep), parts[k])
    decreases |parts|
  {
    var joined := Join(parts, sep);
    if k == 0 {
      assert joined[..|parts[0]|] == parts[0];
      assert OccursAt(joined, parts[0], 0);
    } else {
      var rest := Join(parts[1..], sep);
      JoinContainsPart(parts[1..], sep, k - 1);
      var i: nat :| i <= |rest| && OccursAt(rest, parts[1..][k - 1], i);
      var off := |parts[0]| + |sep|;
      assert joined == parts[0] + sep + rest;
      assert joined[off + i..off + i + |parts[k]|] == rest[i..i + |parts[k]|];
      assert OccursAt(joined, parts[k], off + i);
    }
  }

  /** A join starts with its first part. */
  lemma JoinStartsWithFirst(parts: seq<string>, sep: string)
    requires |parts| >= 1
    ensures parts[0] <= Join(parts, sep)
  {
  }

  /** Neighbouring parts of a join occur in order with the separator between
      them. */
  lemma {:induction false} JoinContainsAdjacent(parts: seq<string>, sep: string, k: nat)
    requires k + 1 < |parts|
    ensures Contains(Join(parts, sep), parts[k] + sep + parts[k + 1])
    decreases |parts|
  {
    var joined := Join(parts, sep);
    var rest := Join(parts[1..], sep);
    var pair := parts[k] + sep + parts[k + 1];
    assert joined == parts[0] + sep + rest;
    if k == 0 {
      JoinStartsWithFirst(parts[1..], sep);
      assert joined[..|pair|] == pair;
      assert OccursAt(joined, pair, 0);
    } else {
      JoinContainsAdjacent(parts[1..], sep, k - 1);
      assert parts[1..][k - 1] + sep + parts[1..][k] == pair;
      var i: nat :| i <= |rest| && OccursAt(rest, pair, i);
      var off := |parts[0]| + |sep|;
      assert joined[off + i..off + i + |pair|] == rest[i..i + |pair|];
      assert OccursAt(joined, pair, off + i);
    }
  }

  /** Text without the separator splits into itself alone. */
  lemma SplitWithoutSeparator(s: string, sep: char)
    requires sep !in s
    ensures Split(s, sep) == [s]
  {
    SplitAppend(s, [], sep);
    assert s + [] == s;
  }

  /** A piece without the separator, then the separator, splits off as one part. */
  lemma SplitPiece(a: string, c: string, sep: char)
    requires sep !in a
    ensures Split(a + [sep] + c, sep) == [a] + Split(c, sep)
  {
    var c' := [sep] + c;
    assert a + [sep] + c == a + c';
    assert c'[0] == sep && c'[1..] == c;
    assert Split(c', sep) == [[]] + Split(c, sep);
    SplitAppend(a, c', sep);
    assert a + [] == a;
  }

  /** Splitting undoes joining when no part holds the separator. */
  lemma {:induction false} SplitJoin(parts: seq<string>, sep: char)
    requires |parts| >= 1
    requires forall k | 0 <= k < |parts| :: sep !in parts[k]
    ensures Split(Join(parts, [sep]), sep) == parts
    decreases |parts|
  {
    if |parts| == 1 {
      SplitAppend(parts[0], [], sep);
      assert parts[0] + [] == parts[0];
    } else {
      SplitPiece(parts[0], Join(parts[1..], [sep]), sep);
      SplitJoin(parts[1..], sep);
    }
  }

  /** Joining a non-empty list after prefixing its first part. */
  lemma JoinPrefixFirst(h: string, parts: seq<string>, sep: string)
    requires |parts| >= 1
    ensures Join([h + parts[0]] + parts[1..], sep) == h + Join(parts, sep)
  {
    var q := [h + parts[0]] + parts[1..];
    assert q[1..] == parts[1..];
  }

  /** Joining undoes splitting: no character of the input is lost. */
  lemma {:induction false} JoinSplit(s: string, sep: char)
    ensures Join(Split(s, sep), [sep]) == s
    decreases |s|
  {
    if |s| > 0 {
      var rest := Split(s[1..], sep);
      JoinSplit(s[1..], sep);
      if s[0] == sep {
        var q := [[]] + rest;
        assert q[1..] == rest;
        assert Join(q, [sep]) == [] + [sep] + Join(rest, [sep]);
        assert [sep] + s[1..] == s;
      } else {
        JoinPrefixFirst([s[0]], rest, [sep]);
        assert [s[0]] + s[1..] == s;
      }
    }
  }

  // ---------------------------------------------------------------------
  // Decimal rendering of natural numbers (`${n}`, `f"{n}"`)
  // ---------------------------------------------------------------------

  predicate IsDigit(c: char) {
    '0' <= c <= '9'
  }

  predicate IsDigits(s: string) {
    forall k | 0 <= k < |s| :: IsDigit(s[k])
  }

  function DigitChar(d: nat): (c: char)
    requires d < 10
    ensures IsDigit(c)
  {
    ('0' as int + d) as char
  }

  function DigitValue(c: char): (d: nat)
    requires IsDigit(c)
    ensures d < 10
  {
    c as int - '0' as int
  }

  /** The decimal numeral of `n` without leading zeros, as JavaScript's
      template literals and Python's f-strings print a non-negative integer. */
  function Decimal(n: nat): (r: string)
    ensures |r| >= 1 && IsDigits(r)
    ensures r[0] == '0' ==> n == 0
    decreases n
  {
    if n < 10 then [DigitChar(n)] else Decimal(n / 10) + [DigitChar(n % 10)]
  }

  /** Reads a decimal numeral back. */
  function ParseDecimal(s: string): nat
    requires IsDigits(s)
    decreases |s|
  {
    if |s| == 0 then 0
    else 10 * ParseDecimal(s[..|s| - 1]) + DigitValue(s[|s| - 1])
  }

  /** The numeral printed for `n` denotes `n`. */
  lemma {:induction false} DecimalRoundTrip(n: nat)
    ensures ParseDecimal(Decimal(n)) == n
    decreases n
  {
    if n >= 10 {
      var r := Decimal(n);
      assert r[..|r| - 1] == Decimal(n / 10);
      DecimalRoundTrip(n / 10);
    }
  }

  // ---------------------------------------------------------------------
  // Character replacement
  // ---------------------------------------------------------------------

  /** Every `from` in `s` replaced by `to`. */
  function ReplaceChar(s: string, from: char, to: char): (r: string)
    ensures |r| == |s|
    ensures forall k | 0 <= k < |s| :: r[k] == (if s[k] == from then to else s[k])
  {
    if |s| == 0 then []
    else [if s[0] == from then to else s[0]] + ReplaceChar(s[1..], from, to)
  }

  /** Replacing a character the text does not hold changes nothing. */
  lemma ReplaceAbsent(s: string, from: char, to: char)
    requires from !in s
    ensures ReplaceChar(s, from, to) == s
  {
    var r := ReplaceChar(s, from, to);
    forall k | 0 <= k < |s| ensures r[k] == s[k] {
      assert s[k] != from;
    }
  }
}

=== FILE: token_server.dfy ===
/** The token server's `GET` handler. It reads the requested interview type
    from the query string, takes a session id from a fresh UUID, and issues a
    token for the participant `user-<id>` in the room `<type>-interview-<id>`.
    The UUID generator, the JWT signer and the configured server URL are
    parameters; the HTTP server loop and the `OPTIONS` handler are not
    modelled. */
module TokenServer {
  import opened Wrappers
  import opened Text

  const TokenRoute := "/getToken"
  const TypeField := "type"
  const DefaultType := "default"
  const IdentityPrefix := "user-"
  const RoomInfix := "-interview-"
  const ParticipantName := "Candidate"
  const SessionIdLength := 8

  // ---------------------------------------------------------------------
  // The query string, as urlparse and parse_qs read it
  // ---------------------------------------------------------------------

  /** The query component of a request target: the text after the first `?`,
      once any `#` fragment has been cut off. */
  function QueryOf(target: string): (q: string)
    ensures '#' !in q
    ensures '?' !in target ==> q == []
    ensures forall h | 0 <= h < |target| && target[h] == '#' && '?' !in target[..h] :: q == []
    ensures forall j, h | 0 <= j < h <= |target| && target[j] == '?' && '?' !in target[..j]
                          && '#' !in target[..h] && (h == |target| || target[h] == '#')
              :: q == target[j + 1..h]
  {
    var beforeFragment := match FindChar(target, '#') case Some(i) => target[..i] case None => target;
    match FindChar(beforeFragment, '?')
    case Some(j) => beforeFragment[j + 1..]
    case None => []
  }

  /** A `+` in a query field stands for a space. */
  function DecodeField(s: string): string {
    ReplaceChar(s, '+', ' ')
  }

  /** One `name=value` field as `parse_qsl` keeps it by default: split at the
      first `=`; a field without `=` or with an empty value is dropped. */
  function ParseField(field: string): (r: Option<(string, string)>)
    ensures r.Some? ==> |r.value.1| > 0
    ensures '=' !in field ==> r.None?
    ensures forall i | 0 <= i < |field| && field[i] == '=' && '=' !in field[..i] ::
      && (r.Some? <==> i + 1 < |field|)
      && (r.Some? ==> r.value == (DecodeField(field[..i]), DecodeField(field[i + 1..])))
  {
    match FindChar(field, '=')
    case None => None
    case Some(i) =>
      if i + 1 == |field| then None
      else Some((DecodeField(field[..i]), DecodeField(field[i + 1..])))
  }

  /** The kept fields of a list of raw fields, in order. */
  function ParseFields(fields: seq<string>): (pairs: seq<(string, string)>)
    ensures |pairs| <= |fields|
    ensures forall k | 0 <= k < |pairs| :: |pairs[k].1| > 0
  {
    if |fields| == 0 then []
    else
      var head := match ParseField(fields[0]) case Some(p) => [p] case None => [];
      head + ParseFields(fields[1..])
  }

  /** `parse_qsl(query)`: the `&`-separated fields that carry a value. */
  function ParseQuery(query: string): seq<(string, string)> {
    ParseFields(Split(query, '&'))
  }

  /** `parse_qs(query)[name]`: the values of every field called `name`, in
      order; empty when there is none. */
  function ValuesOf(pairs: seq<(string, string)>, name: string): (vs: seq<string>)
    ensures |vs| <= |pairs|
    ensures (forall k | 0 <= k < |pairs| :: |pairs[k].1| > 0) ==> forall k | 0 <= k < |vs| :: |vs[k]| > 0
    ensures forall k | 0 <= k < |vs| :: (name, vs[k]) in pairs
    ensures vs == [] <==> forall k | 0 <= k < |pairs| :: pairs[k].0 != name
    ensures vs != [] ==> exists k | 0 <= k < |pairs| ::
      pairs[k] == (name, vs[0]) && forall j | 0 <= j < k :: pairs[j].0 != name
  {
    if |pairs| == 0 then []
    else (if pairs[0].0 == name then [pairs[0].1] else []) + ValuesOf(pairs[1..], name)
  }

  /** The requested interview type: the first value of the `type` field, or
      `default` when the query has none. It is never empty, because fields
      with an empty value are dropped. */
  function InterviewType(target: string): (t: string)
    ensures |t| > 0
    ensures var vs := ValuesOf(ParseQuery(QueryOf(target)), TypeField);
      if vs == [] then t == DefaultType else t == vs[0]
  {
    var vs := ValuesOf(ParseQuery(QueryOf(target)), TypeField);
    if vs == [] then DefaultType else vs[0]
  }

  /** A type that travels through a query string unchanged: non-empty and
      free of the characters that end a field, start a fragment or are
      decoded (`&`, `#`, `+`, `%`). */
  predicate QuerySafe(t: string) {
    |t| > 0 && '&' !in t && '#' !in t && '+' !in t && '%' !in t
  }

  /** The request `/getToken?type=<t>` asks for type `t`. */
  lemma {:induction false} TypeQueryRoundTrip(t: string)
    requires QuerySafe(t)
    ensures InterviewType(TokenRoute + "?" + TypeField + "=" + t) == t
  {
    var field := TypeField + "=" + t;
    TypeRequestQuery(t);
    TypeFieldParses(t);
    SplitWithoutSeparator(field, '&');
  }

  /** The query of `/getToken?type=<t>` is `type=<t>`. */
  lemma TypeRequestQuery(t: string)
    requires QuerySafe(t)
    ensures QueryOf(TokenRoute + "?" + TypeField + "=" + t) == TypeField + "=" + t
  {
    var target := TokenRoute + "?" + TypeField + "=" + t;
    assert '#' !in target;
    assert target[..9] == TokenRoute && target[9] == '?';
    assert '?' !in target[..9];
    assert target[10..] == TypeField + "=" + t;
  }

  /** The field `type=<t>` reads as the pair (`type`, `t`). */
  lemma TypeFieldParses(t: string)
    requires QuerySafe(t)
    ensures ParseField(TypeField + "=" + t) == Some((TypeField, t))
    ensures '&' !in TypeField + "=" + t
  {
    var field := TypeField + "=" + t;
    assert field[..4] == TypeField && field[4] == '=';
    assert '=' !in field[..4];
    assert field[5..] == t;
    assert FindChar(field, '=') == Some(4);
    ReplaceAbsent(TypeField, '+', ' ');
    ReplaceAbsent(t, '+', ' ');
  }

  // ---------------------------------------------------------------------
  // Session, identity and room
  // ---------------------------------------------------------------------

  predicate IsHexDigit(c: char) {
    '0' <= c <= '9' || 'a' <= c <= 'f'
  }

  /** The text `str(uuid.uuid4())` produces: 32 lower-case hex digits in
      groups of 8-4-4-4-12 joined by `-`. */
  predicate IsUuidText(u: string) {
    && |u| == 36
    && forall k | 0 <= k < 36 :: if k in {8, 13, 18, 23} then u[k] == '-' else IsHexDigit(u[k])
  }

  /** The session id: the first eight characters of the UUID text, all of
      them hex digits. */
  function SessionId(uuid: string): (sid: string)
    requires IsUuidText(uuid)
    ensures |sid| == SessionIdLength && sid <= uuid
    ensures forall k | 0 <= k < |sid| :: IsHexDigit(sid[k])
  {
    uuid[..SessionIdLength]
  }

  function Identity(sid: string): string {
    IdentityPrefix + sid
  }

  function RoomName(interviewType: string, sid: string): string {
    interviewType + RoomInfix + sid
  }

  // ---------------------------------------------------------------------
  // The handler
  // ---------------------------------------------------------------------

  /** What the token grants: identity, display name, the metadata's `type`,
      and joining the named room. */
  datatype Claims = Claims(identity: string, name: string, metadataType: string, room: string, roomJoin: bool)

  /** The signer's outcome: a JWT, or the message of the exception it raised. */
  datatype Signing = Signed(jwt: string) | SignFailed(message: string)

  /** The JSON body of a successful response. */
  datatype TokenResponse = TokenResponse(
    token: string,
    url: Option<string>,
    identity: string,
    interviewType: string,
    room: string)

  /** A request outside `/getToken` gets no response body; a signing failure
      is answered with status 500 and the error text. */
  datatype GetResult = NotRouted | Issued(claims: Claims, response: TokenResponse) | ServerError(error: string)

  function ClaimsFor(target: string, uuid: string): Claims
    requires IsUuidText(uuid)
  {
    var interviewType := InterviewType(target);
    var sid := SessionId(uuid);
    Claims(Identity(sid), ParticipantName, interviewType, RoomName(interviewType, sid), true)
  }

  /** Handles `GET target` given the fresh UUID, the signer and the server URL. */
  function HandleGet(target: string, uuid: string, sign: Claims -> Signing, url: Option<string>): (r: GetResult)
    requires IsUuidText(uuid)
    ensures r.NotRouted? <==> !(TokenRoute <= target)
    ensures r.ServerError? <==> TokenRoute <= target && sign(ClaimsFor(target, uuid)).SignFailed?
    ensures r.ServerError? ==> sign(ClaimsFor(target, uuid)) == SignFailed(r.error)
    ensures r.Issued? ==>
      && sign(r.claims) == Signed(r.response.token)
      && r.response.url == url
      && r.claims.roomJoin && r.claims.name == ParticipantName
      && r.response.identity == r.claims.identity
      && r.response.room == r.claims.room
      && r.response.interviewType == r.claims.metadataType == InterviewType(target)
    ensures r.Issued? ==>
      && |r.response.identity| == |IdentityPrefix| + SessionIdLength
      && IdentityPrefix <= r.response.identity
      && r.response.identity[|IdentityPrefix|..] <= uuid
      && r.response.room == r.response.interviewType + RoomInfix + r.response.identity[|IdentityPrefix|..]
  {
    if !(TokenRoute <= target) then NotRouted
    else
      var claims := ClaimsFor(target, uuid);
      match sign(claims)
      case SignFailed(message) => ServerError(message)
      case Signed(jwt) =>
        Issued(claims, TokenResponse(jwt, url, claims.identity, claims.metadataType, claims.room))
  }
}

=== FILE: wrappers.dfy ===
/** The optional-value type used wherever the modelled code reads a key that
    may be missing (a JSON field, a query parameter, a map entry). */
module Wrappers {

  datatype Option<+T> = None | Some(value: T) {

    /** The carried value, or `default` when there is none (Python's
        `dict.get(key, default)` once the lookup is done). */
    function GetOr(default: T): T {
      match this
      case Some(v) => v
      case None => default
    }
  }
}
